=== FILE: README.md ===
# Route search over a labelled property graph

This project models, in Dafny, the logic of `GraphDatabase`, a small front end to
an embedded Neo4j store. The model covers three parts:

- **Graph construction.** `createNode` makes a node with one label and a property
  map. `createRelationship` adds a typed, directed relationship. The helpers
  `createNodeA/B/C` and `createRelationshipX/Y` fix the label to A/B/C with a single
  `name` property, and the type to X/Y.
- **`findRoute`.** It looks up a start node by label and name. It then runs a
  breadth-first search along outgoing relationships until a node passes the goal
  test: the goal label, and a name that is the same string object as the goal name.
- **`printRoute`.** It walks a name-to-name map back from the goal name and reverses
  the names it collected.

The Neo4j store becomes an immutable `Graph` value. Nodes and relationships are
sequences, and an identifier is a position in creation order. The loop of
`findRoute` becomes a state machine, `Bfs.Step` over a `Search` state of queue,
visited set and name map, driven by the method `Bfs.Explore`. `printRoute` returns
the route instead of printing it.

The model follows the code as written:

- **Goal test.** Line 189 compares the name with `==`, which is reference identity.
  The model makes identity a parameter of the goal, `Goal.sameRef`. The search only
  requires that identical strings be equal (`Bfs.IdentityImpliesEquality`).
- **When a node is visited.** A node is marked visited when it is dequeued, so it can
  sit in the queue several times. Termination is proved with the pair (ids not yet
  visited, queue entries already visited).
- **The name map.** It is keyed by the name of the expanded node and maps to the name
  of an end node. Every put made while expanding one node uses the same key, so only
  the last unvisited end node's name survives (`Bfs.AfterPuts`).
- **Consequences for printing.** When the names of the reachable nodes are distinct,
  the printed route is always the single goal name. When two nodes share a name, the
  walk in `printRoute` can cycle. The loop at lines 169-172 then keeps appending
  names to a list and prints nothing, since printing comes after the loop. The model
  reports this as the outcome `Diverges` and proves that the loop never exits in that
  case (`Route.TerminatesIffLoopExits`).
- **Failures.** Reading a missing `name` throws at line 189. Casting a missing or
  non-string `name` to `String` throws at lines 199-200. A start lookup that finds
  nothing leaves a `null` in the queue, which is dereferenced at line 189. A start
  lookup that finds several nodes throws inside the store. Each of these is an
  outcome of `Bfs.FindRoute`, not a precondition.

The code compares names by reference, keys the map by the expanded node's name, and
does not compute shortest paths. The model proves what it does guarantee:
soundness, exhaustiveness on failure, and the shape of the printed route.

Modules:

- `wrappers.dfy`: `Option` and `Result`.
- `graph.dfy` (`PropertyGraph`): the store, creation, adjacency, lookup and
  reachability.
- `route.dfy` (`Route`): `printRoute`, and the semantics of its loop.
- `bfs.dfy` (`Bfs`): `findRoute`.
- `demo.dfy` (`Demo`): the data `populate` loads, and two searches over it.

## Model

| member | source | states |
|---|---|---|
| PropertyGraph.StrName | neo4jgraph/src/main/java/pl/edu/agh/ki/bd2/GraphDatabase.java:199-200 | A node's name is readable as a string exactly when the node exists and its "name" property holds a string. That is the only case in which the `(String)` cast succeeds. |
| PropertyGraph.CreateNode | neo4jgraph/src/main/java/pl/edu/agh/ki/bd2/GraphDatabase.java:63-71 | Adds exactly one node. Its id was not a node before. It carries the given label and exactly the given keys with their values. Existing nodes and all relationships are unchanged, and a valid store stays valid. |
| PropertyGraph.CreateNamedNode | neo4jgraph/src/main/java/pl/edu/agh/ki/bd2/GraphDatabase.java:82-98 | The shared body of `createNodeA/B/C`. The new node has the label and exactly one property, the string `name`. Nothing else changes. |
| PropertyGraph.CreateNodeA | neo4jgraph/src/main/java/pl/edu/agh/ki/bd2/GraphDatabase.java:82-86 | Adds one node labelled "A" whose only property is the given name. Nothing else changes. |
| PropertyGraph.CreateNodeB | neo4jgraph/src/main/java/pl/edu/agh/ki/bd2/GraphDatabase.java:88-92 | Adds one node labelled "B" whose only property is the given name. Nothing else changes. |
| PropertyGraph.CreateNodeC | neo4jgraph/src/main/java/pl/edu/agh/ki/bd2/GraphDatabase.java:94-98 | Adds one node labelled "C" whose only property is the given name. Nothing else changes. |
| PropertyGraph.CreateRelationship | neo4jgraph/src/main/java/pl/edu/agh/ki/bd2/GraphDatabase.java:74-80 | Refuses exactly when an endpoint is not a node, and names the missing endpoint. Otherwise it appends one relationship `node1 -[type]-> node2` with the next id. That relationship becomes the last of `node1`'s outgoing relationships, and `node2` the last of its successors. Every other node's outgoing relationships, all nodes and all older relationships are unchanged. |
| PropertyGraph.CreateRelationshipX | neo4jgraph/src/main/java/pl/edu/agh/ki/bd2/GraphDatabase.java:100-102 | Refuses exactly when an endpoint is missing. Otherwise the relationships become the old ones plus `node1 -[X]-> node2`, and `node2` is appended to `node1`'s successors. |
| PropertyGraph.CreateRelationshipY | neo4jgraph/src/main/java/pl/edu/agh/ki/bd2/GraphDatabase.java:104-106 | The same as `CreateRelationshipX`, with type Y. |
| PropertyGraph.Successors | neo4jgraph/src/main/java/pl/edu/agh/ki/bd2/GraphDatabase.java:196 | One end node per outgoing relationship, in order. `t` is listed exactly when some relationship runs from `u` to `t`. In a valid store every listed end node exists. |
| PropertyGraph.FindNode | neo4jgraph/src/main/java/pl/edu/agh/ki/bd2/GraphDatabase.java:181 | The lookup by label and name (compared by value): no match exactly when no node matches; one match exactly when a single node matches, which is the one returned; otherwise two distinct matching nodes exist. |
| PropertyGraph.CreatedNodeIsFound | neo4jgraph/src/main/java/pl/edu/agh/ki/bd2/GraphDatabase.java:82-98 | After a named node is created, a lookup by its label and name finds exactly that node when no older node matched. Otherwise the lookup finds several nodes. |
| PropertyGraph.ClosedSetHoldsReachable | neo4jgraph/src/main/java/pl/edu/agh/ki/bd2/GraphDatabase.java:196-198 | A set that contains the start and every successor of its members contains every node reachable from the start. |
| Route.Walk | neo4jgraph/src/main/java/pl/edu/agh/ki/bd2/GraphDatabase.java:168-172 | A returned chain starts at the given name. Each entry maps to the next, and the chain ends at the first name without an entry. No already-collected name occurs in it before its end. |
| Route.PrintRoute | neo4jgraph/src/main/java/pl/edu/agh/ki/bd2/GraphDatabase.java:166-177 | The printed route ends with `nodeToBeFound`. Its first name has no entry in the map, and each later name maps to the name printed just before it. |
| Route.PrintRouteIsLoop | neo4jgraph/src/main/java/pl/edu/agh/ki/bd2/GraphDatabase.java:167-173 | The route is the list of values the loop variable takes, reversed. The name printed j-th from the end is the value after j iterations, and the loop exits right after the first printed name. |
| Route.ChainIsFollowed | neo4jgraph/src/main/java/pl/edu/agh/ki/bd2/GraphDatabase.java:169-172 | On a chain that ends, the loop takes exactly the chain's names in order and then exits. |
| Route.RepeatRunsForever | neo4jgraph/src/main/java/pl/edu/agh/ki/bd2/GraphDatabase.java:169-172 | Once the walk meets a name a second time, the loop never exits. |
| Route.TerminatesIffLoopExits | neo4jgraph/src/main/java/pl/edu/agh/ki/bd2/GraphDatabase.java:169-172 | The walk ends exactly when the `while (node != null)` loop exits after finitely many iterations. |
| Bfs.GoalTest | neo4jgraph/src/main/java/pl/edu/agh/ki/bd2/GraphDatabase.java:189 | The test fails whenever the label differs. It throws exactly when the label matches and there is no "name" property. It passes exactly when the label matches, the name is a string, and that string is identical to the goal name. When identical strings are equal, a pass means the name equals the goal name. |
| Bfs.Unvisited | neo4jgraph/src/main/java/pl/edu/agh/ki/bd2/GraphDatabase.java:197 | An end node is kept exactly when it is one of the targets and is not in `visited`, and no more entries come out than go in. |
| Bfs.UnvisitedCounts | neo4jgraph/src/main/java/pl/edu/agh/ki/bd2/GraphDatabase.java:195-198 | Each unvisited end node is kept as often as it occurs among the targets, so duplicates are kept and a node reached over several relationships is queued several times. |
| Bfs.Expand | neo4jgraph/src/main/java/pl/edu/agh/ki/bd2/GraphDatabase.java:196-202 | Walking the relationships throws exactly when some end node is unvisited and either the expanded node or an unvisited end node has no string name. The node reported is one of those, and its name is unreadable. |
| Bfs.ExpandThrowsAtFirst | neo4jgraph/src/main/java/pl/edu/agh/ki/bd2/GraphDatabase.java:196-200 | When the expanded node has a string name, the throw is at the first unvisited end node without one, in relationship order. |
| Bfs.ExpandQueue | neo4jgraph/src/main/java/pl/edu/agh/ki/bd2/GraphDatabase.java:196-198 | When nothing throws, the queue gains exactly the unvisited end nodes, in relationship order. |
| Bfs.ExpandParents | neo4jgraph/src/main/java/pl/edu/agh/ki/bd2/GraphDatabase.java:199-200 | When nothing throws, the name map gains a single entry: the expanded node's name mapped to the name of the last unvisited end node. Later puts overwrite earlier ones. |
| Bfs.Step | neo4jgraph/src/main/java/pl/edu/agh/ki/bd2/GraphDatabase.java:187-202 | One iteration. It hits exactly when the head of the queue passes the test. It throws exactly when the head's test throws, or the head fails and walking its relationships throws. Otherwise the head failed the test, the visited set gains it, the queue drops it and gains its unvisited end nodes, and the name map is updated as above. A throw happens at the head when its test throws. Otherwise it happens after the head failed, and only if the head has a relationship to another node; it is at the head or at that node. An unnamed head is itself the node reported. That node has no string name. |
| Bfs.StepKeepsInv | neo4jgraph/src/main/java/pl/edu/agh/ki/bd2/GraphDatabase.java:186-202 | An iteration keeps the loop invariant: queued nodes are reachable; visited nodes are reachable and failed the test; the end nodes of visited nodes are visited or queued; the start is visited or queued; every map entry comes from a visited node and one of its relationships. Every queued or visited node other than the start has a string name. A start that passes, or that throws, is never expanded. A node thrown at is reachable, has no string name, and is one whose name the code reads. |
| Bfs.StepShrinks | neo4jgraph/src/main/java/pl/edu/agh/ki/bd2/GraphDatabase.java:187-203 | Each iteration either visits a new node, or keeps the visited set and removes a queue entry that was already visited. So the loop ends even though a node can be queued several times. |
| Bfs.HitAnswer | neo4jgraph/src/main/java/pl/edu/agh/ki/bd2/GraphDatabase.java:189-190 | When the goal is hit, some reachable node passed the test, so it has the goal's label and name. Consecutive printed names are the names of a reachable node and of one of its end nodes. The route is the single goal name when the start passes, when names are distinct, or when no visited node carries the goal name. |
| Bfs.Report | neo4jgraph/src/main/java/pl/edu/agh/ki/bd2/GraphDatabase.java:190 | The answer on a hit is a route ending at the goal name, linked through the map, or a printing loop that never exits. A goal name with no entry gives the route of that name alone. |
| Bfs.Explore | neo4jgraph/src/main/java/pl/edu/agh/ki/bd2/GraphDatabase.java:186-203 | The loop stops in a state that satisfies the invariant. It stops on a hit exactly when the head of the queue passes. Otherwise the queue is empty, or the reported node is the one the iteration on the head of the queue throws at. |
| Bfs.SearchFrom | neo4jgraph/src/main/java/pl/edu/agh/ki/bd2/GraphDatabase.java:182-205 | Soundness: true means a reachable node passed the test, so it has the goal's label and name. Exhaustiveness: false means every reachable node failed the test, and every reachable node other than the start has a string name. A throw happens at a reachable node without a string name whose name the code can read: in its own goal test, or while expanding a reachable node that failed the test and has a relationship to another node. When the first iteration throws, the answer is that throw, at the start when it has no string name and otherwise at its first end node, other than itself, without one. The route ends at the goal name and follows relationships between named reachable nodes. A passing start gives `[name2]` at once. Distinct names, or no failing reachable node carrying the goal name, mean the printing ends and prints `[name2]`. |
| Bfs.FindRoute | neo4jgraph/src/main/java/pl/edu/agh/ki/bd2/GraphDatabase.java:179-207 | Throws for a missing start exactly when no node matches `label1`/`name1`. Throws for several starts exactly when more than one node matches. Otherwise the search runs from the unique match with every guarantee of `SearchFrom`. |
| Demo.Populate | neo4jgraph/src/main/java/pl/edu/agh/ki/bd2/GraphDatabase.java:108-151 | Running the calls of `populate` in order on an empty store, through `createNodeA/B/C` and `createRelationshipX/Y`, succeeds. Node i is the one made by the i-th node call, and relationship i the one made by the i-th relationship call. |
| Demo.ForwardAnswer | neo4jgraph/src/main/java/pl/edu/agh/ki/bd2/GraphDatabase.java:108-151 | On the populated store, the search from A "1" for C "111" prints the route `["111"]` when the name read back is the same object as the goal name. Otherwise it answers false. This holds for every reference comparison under which identical strings are equal. |
| Demo.BackwardAnswer | neo4jgraph/src/main/java/pl/edu/agh/ki/bd2/GraphDatabase.java:108-151 | On the populated store, no relationship leaves C "111" and its label is not A, so a search from there for an A-node answers false, whatever the reference comparison. |
| Demo.PopulatedRoutes | neo4jgraph/src/main/java/pl/edu/agh/ki/bd2/GraphDatabase.java:179-207 | On the populated store, `findRoute("A","1","C","111")` prints `["111"]` when the stored name "111" is the same object as the argument "111", and otherwise answers false. `findRoute("C","111","A","1")` answers false. |

## Left out

- The embedded database bootstrap and the shutdown hook (lines 31-53): process lifecycle of the external engine.
- `runCypher` (lines 55-61): it hands query text to the store's Cypher engine, which is not part of this model.
- Transactions (begin, success, close) in every method: they carry no logic of their own here. The model runs each operation against one immutable store value.
- `displayRelationships` (lines 153-164): it only prints, and it walks relationships in both directions.
- All console output. `printRoute` returns the route. "Couldn't find a path" becomes the outcome `NoRoute`.
- The order in which the store enumerates a node's outgoing relationships: the store does not specify it. The model uses creation order.
- Property values: strings, integers and booleans only. The model never looks at values other than strings.
- Java string identity is not computable from contents. It is the parameter `Goal.sameRef`, constrained only so that identical strings are equal. That comparison is a function of the two strings' contents, so nodes with equal names get the same verdict, and so do repeated tests of one node dequeued again. Java identity is per object, so two nodes named "111", or two reads of one node's name, can compare differently.
- Exceptions keep no type or message. Each is an outcome naming where it happened (`Threw(at)`, `NoStartNode`, `ManyStartNodes`).
- Relationship creation takes node ids rather than node objects. An id that is not a node is refused, because the store rejects an endpoint that is not one of its nodes.
- Node deletion and property updates: no modelled operation performs them. Only `runCypher` could, through query text.
- Route.PrintRoute: it requires the walk through the name map to end, because otherwise the loop never exits. `Bfs.Report` covers the other case with the outcome `Diverges`.
- Bfs.Report: `Diverges` stands for a loop that never exits. On a real JVM the list the loop appends to grows until memory runs out and an `OutOfMemoryError` ends the call. The model has unbounded memory.
- Bfs.SearchFrom: beyond the first iteration, the contract does not decide between a hit and a throw when both a passing node and a node without a string name are reachable, nor which unnamed node the throw is at. That depends on the breadth-first order in which nodes are dequeued, and the contract states no distance ordering. `Bfs.Step` and `Bfs.Explore` still fix each iteration exactly.
- Bfs.FindRoute: the shortest-path property is not stated. As the model shows, the printed route generally is not a path from the start.

=== FILE: bfs.dfy ===
/** The breadth-first route search over outgoing relationships: a FIFO queue of
    nodes, a set of visited node ids and a map between names. A node is marked
    visited when it is taken off the queue, not when it is put on it, so the same
    node may wait in the queue more than once. */
module Bfs {
  import opened Wrappers
  import opened PropertyGraph
  import opened Route

  /** What the search looks for: a node with `labelName` whose name is `name`.
      `sameRef` is the reference comparison the name test uses; two strings that are
      the same object have the same contents, but equal contents need not make
      them the same object. */
  datatype Goal = Goal(labelName: string, name: string, sameRef: (string, string) -> bool)

  /** Reference identity implies equal contents. */
  ghost predicate IdentityImpliesEquality(goal: Goal) {
    forall a, b :: goal.sameRef(a, b) ==> a == b
  }

  /** The goal test on a dequeued node: passes, fails, or throws because the node
      has the goal's label but no "name" property at all. */
  datatype Verdict = Pass | Fail | Throws

  function GoalTest(g: Graph, u: NodeId, goal: Goal): (v: Verdict)
    requires g.Has(u)
    ensures g.nodes[u].labelName != goal.labelName ==> v == Fail
    ensures v == Throws <==> g.nodes[u].labelName == goal.labelName && NameKey !in g.nodes[u].properties
    ensures v == Pass <==>
      g.nodes[u].labelName == goal.labelName && StrName(g, u).Some? && goal.sameRef(StrName(g, u).value, goal.name)
    ensures v == Pass && IdentityImpliesEquality(goal) ==>
      g.nodes[u].labelName == goal.labelName && StrName(g, u) == Some(goal.name)
  {
    if g.nodes[u].labelName != goal.labelName then Fail
    else if NameKey !in g.nodes[u].properties then Throws
    else
      match g.nodes[u].properties[NameKey]
      case Str(s) => if goal.sameRef(s, goal.name) then Pass else Fail
      case _ => Fail
  }

  /** The entries of `targets` that are not in `visited`, in order. */
  function Unvisited(targets: seq<NodeId>, visited: set<NodeId>): (unseen: seq<NodeId>)
    ensures forall t :: t in unseen <==> t in targets && t !in visited
    ensures |unseen| <= |targets|
  {
    if |targets| == 0 then []
    else (if targets[0] in visited then [] else [targets[0]]) + Unvisited(targets[1..], visited)
  }

  /** An unvisited end node is kept as often as it occurs among the targets, so a
      node reached over several relationships is queued several times. */
  lemma {:induction false} UnvisitedCounts(targets: seq<NodeId>, visited: set<NodeId>)
    ensures forall t :: multiset(Unvisited(targets, visited))[t] == if t in visited then 0 else multiset(targets)[t]
    decreases |targets|
  {
    if |targets| > 0 {
      UnvisitedCounts(targets[1..], visited);
      assert targets == [targets[0]] + targets[1..];
    }
  }

  /** The queue and the name map after a node's relationships have been walked. */
  datatype Frontier = Frontier(queue: seq<NodeId>, parents: map<string, string>)

  /** Every node of `ts` carries a string name. */
  ghost predicate AllNamed(g: Graph, ts: seq<NodeId>) {
    forall i :: 0 <= i < |ts| ==> StrName(g, ts[i]).Some?
  }

  lemma AllNamedCons(g: Graph, t: NodeId, rest: seq<NodeId>)
    ensures AllNamed(g, [t] + rest) <==> StrName(g, t).Some? && AllNamed(g, rest)
  {
    var ts := [t] + rest;
    if AllNamed(g, ts) {
      assert ts[0] == t;
      forall i | 0 <= i < |rest| ensures StrName(g, rest[i]).Some? {
        assert ts[i + 1] == rest[i];
      }
    }
    if StrName(g, t).Some? && AllNamed(g, rest) {
      forall i | 0 <= i < |ts| ensures StrName(g, ts[i]).Some? {
        if i > 0 {
          assert ts[i] == rest[i - 1];
        }
      }
    }
  }

  /** The first node of `ts` without a string name, if any. */
  function FirstUnnamed(g: Graph, ts: seq<NodeId>): (r: Option<NodeId>)
    ensures r.None? <==> AllNamed(g, ts)
    ensures r.Some? ==> exists i :: (0 <= i < |ts| && ts[i] == r.value && StrName(g, ts[i]).None? &&
      forall j :: 0 <= j < i ==> StrName(g, ts[j]).Some?)
  {
    if |ts| == 0 then None
    else
      assert ts == [ts[0]] + ts[1..];
      AllNamedCons(g, ts[0], ts[1..]);
      if StrName(g, ts[0]).None? then Some(ts[0])
      else
        var r := FirstUnnamed(g, ts[1..]);
        assert r.Some? ==> exists i :: (1 <= i < |ts| && ts[i] == r.value && StrName(g, ts[i]).None? &&
          forall j :: 0 <= j < i ==> StrName(g, ts[j]).Some?);
        r
  }

  lemma FirstUnnamedCons(g: Graph, t: NodeId, rest: seq<NodeId>)
    ensures FirstUnnamed(g, [t] + rest) == if StrName(g, t).None? then Some(t) else FirstUnnamed(g, rest)
  {
    assert ([t] + rest)[0] == t && ([t] + rest)[1..] == rest;
  }

  /** The name map after `u`'s unvisited end nodes `unseen` have each put the entry
      `name of u` -> `name of end node`: later puts overwrite earlier ones. */
  function AfterPuts(g: Graph, u: NodeId, unseen: seq<NodeId>, parents: map<string, string>): map<string, string>
    requires |unseen| > 0 ==> StrName(g, u).Some? && AllNamed(g, unseen)
  {
    if |unseen| == 0 then parents
    else parents[StrName(g, u).value := StrName(g, unseen[|unseen| - 1]).value]
  }

  /** Putting `t`'s entry first and then those of `rest` leaves what the puts of
      `rest` alone leave, unless `rest` is empty. */
  lemma AfterPutsCons(g: Graph, u: NodeId, t: NodeId, rest: seq<NodeId>, parents: map<string, string>)
    requires StrName(g, u).Some? && StrName(g, t).Some? && AllNamed(g, rest)
    ensures AfterPuts(g, u, [t] + rest, parents) ==
      AfterPuts(g, u, rest, parents[StrName(g, u).value := StrName(g, t).value])
  {
    AllNamedCons(g, t, rest);
    if |rest| > 0 {
      assert ([t] + rest)[|rest|] == rest[|rest| - 1];
    }
  }

  /** Walks the end nodes `targets` of `u`'s outgoing relationships in order. Each one
      not in `visited` is appended to the queue and the name map gets the entry
      `name of u` -> `name of that end node`; reading a name that is missing or is
      not a string throws, reported as the node it was read from. Since every entry
      has the same key, only the last unvisited end node's name survives. */
  function Expand(g: Graph, u: NodeId, targets: seq<NodeId>, visited: set<NodeId>,
                  queue: seq<NodeId>, parents: map<string, string>): (r: Result<Frontier, NodeId>)
    decreases |targets|
    ensures r.Failure? <==>
      |Unvisited(targets, visited)| > 0 && (StrName(g, u).None? || !AllNamed(g, Unvisited(targets, visited)))
    ensures r.Failure? ==>
      StrName(g, r.error).None? && (r.error == u || r.error in Unvisited(targets, visited))
    ensures r.Failure? && StrName(g, u).None? ==> r.error == u
  {
    if |targets| == 0 then Success(Frontier(queue, parents))
    else
      var t := targets[0];
      var rest := Unvisited(targets[1..], visited);
      assert Unvisited(targets, visited) == (if t in visited then [] else [t]) + rest;
      if t in visited then Expand(g, u, targets[1..], visited, queue, parents)
      else if StrName(g, u).None? then Failure(u)
      else if StrName(g, t).None? then Failure(t)
      else
        AllNamedCons(g, t, rest);
        Expand(g, u, targets[1..], visited, queue + [t], parents[StrName(g, u).value := StrName(g, t).value])
  }

  /** When the expanded node is named, the throw is at the first unvisited end node
      without a string name, in relationship order. */
  lemma {:induction false} ExpandThrowsAtFirst(g: Graph, u: NodeId, targets: seq<NodeId>, visited: set<NodeId>,
                                               queue: seq<NodeId>, parents: map<string, string>)
    requires StrName(g, u).Some?
    requires Expand(g, u, targets, visited, queue, parents).Failure?
    ensures FirstUnnamed(g, Unvisited(targets, visited)) == Some(Expand(g, u, targets, visited, queue, parents).error)
    decreases |targets|
  {
    assert |targets| > 0;
    var t := targets[0];
    var rest := Unvisited(targets[1..], visited);
    assert Unvisited(targets, visited) == (if t in visited then [] else [t]) + rest;
    if t in visited {
      assert Expand(g, u, targets, visited, queue, parents) == Expand(g, u, targets[1..], visited, queue, parents);
      ExpandThrowsAtFirst(g, u, targets[1..], visited, queue, parents);
      assert Unvisited(targets, visited) == rest;
    } else if StrName(g, t).None? {
      FirstUnnamedCons(g, t, rest);
      assert Unvisited(targets, visited) == [t] + rest;
      assert Expand(g, u, targets, visited, queue, parents) == Failure(t);
    } else {
      var parents' := parents[StrName(g, u).value := StrName(g, t).value];
      assert Expand(g, u, targets, visited, queue, parents) == Expand(g, u, targets[1..], visited, queue + [t], parents');
      ExpandThrowsAtFirst(g, u, targets[1..], visited, queue + [t], parents');
      FirstUnnamedCons(g, t, rest);
      assert Unvisited(targets, visited) == [t] + rest;
    }
  }

  /** When no name read throws, the queue gains exactly the unvisited end nodes, in
      relationship order. */
  lemma {:induction false} ExpandQueue(g: Graph, u: NodeId, targets: seq<NodeId>, visited: set<NodeId>,
                                       queue: seq<NodeId>, parents: map<string, string>)
    requires Expand(g, u, targets, visited, queue, parents).Success?
    ensures Expand(g, u, targets, visited, queue, parents).value.queue == queue + Unvisited(targets, visited)
    decreases |targets|
  {
    if |targets| > 0 {
      var t := targets[0];
      var rest := Unvisited(targets[1..], visited);
      assert Unvisited(targets, visited) == (if t in visited then [] else [t]) + rest;
      if t in visited {
        assert Expand(g, u, targets, visited, queue, parents) == Expand(g, u, targets[1..], visited, queue, parents);
        ExpandQueue(g, u, targets[1..], visited, queue, parents);
        assert Unvisited(targets, visited) == rest;
      } else {
        assert StrName(g, u).Some? && StrName(g, t).Some?;
        var parents' := parents[StrName(g, u).value := StrName(g, t).value];
        assert Expand(g, u, targets, visited, queue, parents) == Expand(g, u, targets[1..], visited, queue + [t], parents');
        ExpandQueue(g, u, targets[1..], visited, queue + [t], parents');
        assert (queue + [t]) + rest == queue + ([t] + rest);
      }
    }
  }

  /** When no name read throws, the name map gains the entry of the last unvisited
      end node only. */
  lemma {:induction false} ExpandParents(g: Graph, u: NodeId, targets: seq<NodeId>, visited: set<NodeId>,
                                         queue: seq<NodeId>, parents: map<string, string>)
    requires Expand(g, u, targets, visited, queue, parents).Success?
    ensures Expand(g, u, targets, visited, queue, parents).value.parents == AfterPuts(g, u, Unvisited(targets, visited), parents)
    decreases |targets|
  {
    if |targets| > 0 {
      var t := targets[0];
      var rest := Unvisited(targets[1..], visited);
      assert Unvisited(targets, visited) == (if t in visited then [] else [t]) + rest;
      if t in visited {
        ExpandParents(g, u, targets[1..], visited, queue, parents);
      } else {
        assert StrName(g, u).Some? && StrName(g, t).Some?;
        var parents' := parents[StrName(g, u).value := StrName(g, t).value];
        assert Expand(g, u, targets, visited, queue, parents) == Expand(g, u, targets[1..], visited, queue + [t], parents');
        ExpandParents(g, u, targets[1..], visited, queue + [t], parents');
        AllNamedCons(g, t, rest);
        AfterPutsCons(g, u, t, rest, parents);
      }
    }
  }

  /** The state of the loop: queue, visited ids, and the name map. */
  datatype Search = Search(queue: seq<NodeId>, visited: set<NodeId>, parents: map<string, string>)

  /** What one iteration of the loop does: carries on with a new state, hits the
      goal, or throws at a node whose name could not be read. */
  datatype Move = Continue(next: Search) | Hit | Crash(at: NodeId)

  /** One iteration: take the head of the queue, test it, and otherwise mark it
      visited and walk its outgoing relationships. */
  function Step(g: Graph, goal: Goal, s: Search): (m: Move)
    requires |s.queue| > 0 && g.Has(s.queue[0])
    ensures m.Hit? <==> GoalTest(g, s.queue[0], goal) == Pass
    ensures m.Continue? ==> GoalTest(g, s.queue[0], goal) == Fail && m.next.visited == s.visited + {s.queue[0]}
    ensures m.Continue? ==>
      m.next.queue == s.queue[1..] + Unvisited(Successors(g, s.queue[0]), m.next.visited)
    ensures m.Continue? ==> (|Unvisited(Successors(g, s.queue[0]), m.next.visited)| > 0 ==>
      StrName(g, s.queue[0]).Some? && AllNamed(g, Unvisited(Successors(g, s.queue[0]), m.next.visited)))
    ensures m.Continue? ==>
      m.next.parents == AfterPuts(g, s.queue[0], Unvisited(Successors(g, s.queue[0]), m.next.visited), s.parents)
    ensures m.Crash? <==>
      || GoalTest(g, s.queue[0], goal) == Throws
      || (GoalTest(g, s.queue[0], goal) == Fail &&
          Expand(g, s.queue[0], Successors(g, s.queue[0]), s.visited + {s.queue[0]}, s.queue[1..], s.parents).Failure?)
    ensures m.Crash? ==> StrName(g, m.at).None?
    ensures m.Crash? ==>
      || (m.at == s.queue[0] && GoalTest(g, m.at, goal) == Throws)
      || (GoalTest(g, s.queue[0], goal) == Fail &&
          exists t :: t in Successors(g, s.queue[0]) && t != s.queue[0] && (m.at == s.queue[0] || m.at == t))
    ensures m.Crash? && StrName(g, s.queue[0]).None? ==> m.at == s.queue[0]
  {
    var u := s.queue[0];
    match GoalTest(g, u, goal)
    case Pass => Hit
    case Throws => Crash(u)
    case Fail =>
      var visited := s.visited + {u};
      match Expand(g, u, Successors(g, u), visited, s.queue[1..], s.parents)
      case Failure(at) =>
        var unseen := Unvisited(Successors(g, u), visited);
        assert unseen[0] in unseen;
        Crash(at)
      case Success(f) =>
        ExpandQueue(g, u, Successors(g, u), visited, s.queue[1..], s.parents);
        ExpandParents(g, u, Successors(g, u), visited, s.queue[1..], s.parents);
        Continue(Search(f.queue, visited, f.parents))
  }

  /** The code can read the name of node `at`: in the goal test, because `at` has
      the goal's label, or in the cast while expanding a node `u` reachable from
      `start` that failed the test and has a relationship to another node `t`, `at`
      being `u` or `t`. A relationship from `u` to itself reads nothing, since `u` is
      already visited then. Whether the search gets that far depends on the order in
      which it dequeues nodes. */
  ghost predicate NameRead(g: Graph, start: NodeId, goal: Goal, at: NodeId) {
    && g.Has(at)
    && (|| GoalTest(g, at, goal) == Throws
        || exists u: NodeId :: g.Has(u) && Reachable(g, start, u) && GoalTest(g, u, goal) == Fail &&
             exists t :: t in Successors(g, u) && t != u && (at == u || at == t))
  }

  /** The first iteration throws: the start's goal test throws, or the start fails
      the test and has a relationship to another node, while the start or such a
      node has no string name. */
  ghost predicate StartThrows(g: Graph, start: NodeId, goal: Goal)
    requires g.Has(start)
  {
    || GoalTest(g, start, goal) == Throws
    || (&& GoalTest(g, start, goal) == Fail
        && exists t :: t in Successors(g, start) && t != start && (StrName(g, start).None? || StrName(g, t).None?))
  }

  /** Where the first iteration throws: at the start when it has no string name,
      otherwise at its first end node, other than itself, without one. */
  function StartThrowAt(g: Graph, start: NodeId): NodeId {
    if StrName(g, start).None? then start
    else
      match FirstUnnamed(g, Unvisited(Successors(g, start), {start}))
      case Some(t) => t
      case None => start
  }

  /** A start node that throws does so in the first iteration, at `StartThrowAt`. */
  lemma StartThrowsCrashes(g: Graph, start: NodeId, goal: Goal)
    requires g.Valid() && g.Has(start) && StartThrows(g, start, goal)
    ensures Step(g, goal, Search([start], {}, map[])) == Crash(StartThrowAt(g, start))
  {
    var s0 := Search([start], {}, map[]);
    assert s0.queue[0] == start && s0.queue[1..] == [] && s0.visited + {start} == {start};
    if GoalTest(g, start, goal) == Fail {
      var t :| t in Successors(g, start) && t != start && (StrName(g, start).None? || StrName(g, t).None?);
      var unseen := Unvisited(Successors(g, start), {start});
      assert t in unseen;
      var e := Expand(g, start, Successors(g, start), {start}, [], map[]);
      if StrName(g, start).Some? {
        var i :| 0 <= i < |unseen| && unseen[i] == t;
        assert !AllNamed(g, unseen);
        ExpandThrowsAtFirst(g, start, Successors(g, start), {start}, [], map[]);
      }
      assert e.Failure? && e.error == StartThrowAt(g, start);
      assert Step(g, goal, s0) == Crash(e.error);
    } else {
      assert StrName(g, start).None?;
    }
  }


  // ---------------------------------------------------------------------------
  // Invariant of the loop

  /** `k -> v` was recorded while expanding the visited node `u`, named `k`, which
      has an outgoing relationship to `t`, named `v`. */
  ghost predicate Recorded(g: Graph, visited: set<NodeId>, u: NodeId, t: NodeId, k: string, v: string) {
    u in visited && t in Successors(g, u) && StrName(g, u) == Some(k) && StrName(g, t) == Some(v)
  }

  /** Every node put on the queue is reachable from the start. */
  ghost predicate QueueReachable(g: Graph, start: NodeId, queue: seq<NodeId>) {
    forall t :: t in queue ==> g.Has(t) && Reachable(g, start, t)
  }

  /** Every visited node is reachable from the start and failed the goal test. */
  ghost predicate VisitedFailed(g: Graph, start: NodeId, goal: Goal, visited: set<NodeId>) {
    forall v :: v in visited ==> g.Has(v) && Reachable(g, start, v) && GoalTest(g, v, goal) == Fail
  }

  /** The end nodes of a visited node's relationships are visited or waiting. */
  ghost predicate Closed(g: Graph, s: Search) {
    forall v, t :: v in s.visited && t in Successors(g, v) ==> t in s.visited || t in s.queue
  }

  /** Every entry of the name map comes from an expanded node and one of its
      relationships. */
  ghost predicate ParentsRecorded(g: Graph, visited: set<NodeId>, parents: map<string, string>) {
    forall k :: k in parents ==> exists u, t :: Recorded(g, visited, u, t, k, parents[k])
  }

  ghost predicate Inv(g: Graph, start: NodeId, goal: Goal, s: Search) {
    && QueueReachable(g, start, s.queue)
    && VisitedFailed(g, start, goal, s.visited)
    && Closed(g, s)
    && (start in s.visited || start in s.queue)
    && ParentsRecorded(g, s.visited, s.parents)
    // a start node that passes the test is never expanded
    && (GoalTest(g, start, goal) == Pass ==> s == Search([start], {}, map[]))
    // nor is a start node that throws
    && (StartThrows(g, start, goal) ==> s == Search([start], {}, map[]))
    && Named(g, start, s)
  }

  /** Every node put on the queue after the start, and so every visited node other
      than the start, has a string name. */
  ghost predicate Named(g: Graph, start: NodeId, s: Search) {
    && (forall t :: t in s.queue && t != start ==> StrName(g, t).Some?)
    && (forall t :: t in s.visited && t != start ==> StrName(g, t).Some?)
  }

  /** Only named nodes are appended to the queue. */
  lemma NamedStays(g: Graph, start: NodeId, s: Search, n: Search)
    requires |s.queue| > 0 && Named(g, start, s)
    requires n.visited == s.visited + {s.queue[0]}
    requires n.queue == s.queue[1..] + Unvisited(Successors(g, s.queue[0]), n.visited)
    requires var unseen := Unvisited(Successors(g, s.queue[0]), n.visited);
      |unseen| > 0 ==> AllNamed(g, unseen)
    ensures Named(g, start, n)
  {
    var unseen := Unvisited(Successors(g, s.queue[0]), n.visited);
    assert s.queue[0] in s.queue;
    forall t | t in n.queue && t != start ensures StrName(g, t).Some? {
      if t in unseen {
        var i :| 0 <= i < |unseen| && unseen[i] == t;
      } else {
        assert t in s.queue[1..];
      }
    }
  }

  lemma InitialInv(g: Graph, start: NodeId, goal: Goal)
    requires g.Has(start)
    ensures Inv(g, start, goal, Search([start], {}, map[]))
  {
    ReachableFromItself(g, start);
  }

  /** What is left of the queue after its head is taken off. */
  lemma Dequeued(q: seq<NodeId>, t: NodeId)
    requires |q| > 0 && t in q && t != q[0]
    ensures t in q[1..]
  {
    var i :| 0 <= i < |q| && q[i] == t;
    assert q[1..][i - 1] == t;
  }

  /** The queue stays reachable when the head's unvisited successors are appended. */
  lemma QueueStaysReachable(g: Graph, start: NodeId, s: Search, n: Search)
    requires g.Valid() && |s.queue| > 0 && QueueReachable(g, start, s.queue)
    requires n.queue == s.queue[1..] + Unvisited(Successors(g, s.queue[0]), n.visited)
    ensures QueueReachable(g, start, n.queue)
  {
    var u := s.queue[0];
    assert u in s.queue;
    var unseen := Unvisited(Successors(g, u), n.visited);
    forall t | t in n.queue ensures g.Has(t) && Reachable(g, start, t) {
      if t in unseen {
        ReachableStep(g, start, u, t);
      } else {
        assert t in s.queue[1..];
      }
    }
  }

  /** Visiting the head and appending its unvisited successors keeps the visited
      set closed up to the queue. */
  lemma ClosedStays(g: Graph, s: Search, n: Search)
    requires |s.queue| > 0 && Closed(g, s)
    requires n.visited == s.visited + {s.queue[0]}
    requires n.queue == s.queue[1..] + Unvisited(Successors(g, s.queue[0]), n.visited)
    ensures Closed(g, n)
  {
    forall v, t | v in n.visited && t in Successors(g, v) ensures t in n.visited || t in n.queue {
      if v != s.queue[0] && t !in n.visited {
        Dequeued(s.queue, t);
      }
    }
  }

  /** The entry put while expanding the head is recorded by the head, and the older
      entries keep their witnesses. */
  lemma ParentsStayRecorded(g: Graph, s: Search, n: Search)
    requires |s.queue| > 0 && ParentsRecorded(g, s.visited, s.parents)
    requires n.visited == s.visited + {s.queue[0]}
    requires var unseen := Unvisited(Successors(g, s.queue[0]), n.visited);
      |unseen| > 0 ==> StrName(g, s.queue[0]).Some? && AllNamed(g, unseen)
    requires n.parents == AfterPuts(g, s.queue[0], Unvisited(Successors(g, s.queue[0]), n.visited), s.parents)
    ensures ParentsRecorded(g, n.visited, n.parents)
  {
    var u := s.queue[0];
    var unseen := Unvisited(Successors(g, u), n.visited);
    forall k | k in n.parents ensures exists u', t' :: Recorded(g, n.visited, u', t', k, n.parents[k]) {
      if |unseen| > 0 && k == StrName(g, u).value {
        var last := unseen[|unseen| - 1];
        assert last in unseen;
        assert Recorded(g, n.visited, u, last, k, n.parents[k]);
      } else {
        var u', t' :| Recorded(g, s.visited, u', t', k, s.parents[k]);
        assert Recorded(g, n.visited, u', t', k, n.parents[k]);
      }
    }
  }

  /** One iteration keeps the invariant, and a node it throws at is reachable and
      has no string name. */
  lemma StepKeepsInv(g: Graph, start: NodeId, goal: Goal, s: Search)
    requires g.Valid() && Inv(g, start, goal, s) && |s.queue| > 0
    ensures g.Has(s.queue[0])
    ensures Step(g, goal, s).Continue? ==> Inv(g, start, goal, Step(g, goal, s).next)
    ensures Step(g, goal, s).Crash? ==>
      Reachable(g, start, Step(g, goal, s).at) && StrName(g, Step(g, goal, s).at).None? &&
      NameRead(g, start, goal, Step(g, goal, s).at)
  {
    var u := s.queue[0];
    assert u in s.queue;
    var m := Step(g, goal, s);
    if m.Crash? && m.at != u {
      ReachableStep(g, start, u, m.at);
    }
    if StartThrows(g, start, goal) {
      StartThrowsCrashes(g, start, goal);
    }
    if m.Continue? {
      var n := m.next;
      QueueStaysReachable(g, start, s, n);
      ClosedStays(g, s, n);
      ParentsStayRecorded(g, s, n);
      NamedStays(g, start, s, n);
      if start != u && start in s.queue {
        Dequeued(s.queue, start);
      }
    }
  }

  /** The number of queue entries whose node is already visited. */
  function VisitedEntries(q: seq<NodeId>, visited: set<NodeId>): (n: nat)
    ensures n <= |q|
    ensures n == 0 <==> forall t :: t in q ==> t !in visited
  {
    if |q| == 0 then 0
    else (if q[0] in visited then 1 else 0) + VisitedEntries(q[1..], visited)
  }

  lemma {:induction false} VisitedEntriesAppend(a: seq<NodeId>, b: seq<NodeId>, visited: set<NodeId>)
    ensures VisitedEntries(a + b, visited) == VisitedEntries(a, visited) + VisitedEntries(b, visited)
    decreases |a|
  {
    if |a| > 0 {
      assert (a + b)[0] == a[0];
      assert (a + b)[1..] == a[1..] + b;
      VisitedEntriesAppend(a[1..], b, visited);
      assert VisitedEntries(a + b, visited) == (if a[0] in visited then 1 else 0) + VisitedEntries(a[1..] + b, visited);
    } else {
      assert a + b == b;
    }
  }

  /** The ids below `n`. */
  function IdsBelow(n: nat): (ids: set<NodeId>)
    ensures forall i: NodeId :: i in ids <==> i < n
  {
    if n == 0 then {} else IdsBelow(n - 1) + {n - 1}
  }

  /** Each iteration either visits a new node, or keeps the visited set and removes
      one queue entry whose node was already visited. */
  lemma StepShrinks(g: Graph, goal: Goal, s: Search)
    requires |s.queue| > 0 && g.Has(s.queue[0])
    ensures Step(g, goal, s).Continue? ==>
      var n := Step(g, goal, s).next;
      || IdsBelow(|g.nodes|) - n.visited < IdsBelow(|g.nodes|) - s.visited
      || (n.visited == s.visited && VisitedEntries(n.queue, n.visited) < VisitedEntries(s.queue, s.visited))
  {
    var u := s.queue[0];
    var m := Step(g, goal, s);
    if m.Continue? {
      var n := m.next;
      var ids := IdsBelow(|g.nodes|);
      if u in s.visited {
        var unseen := Unvisited(Successors(g, u), n.visited);
        assert n.visited == s.visited;
        assert VisitedEntries(unseen, n.visited) == 0;
        VisitedEntriesAppend(s.queue[1..], unseen, n.visited);
        assert VisitedEntries(s.queue, s.visited) == 1 + VisitedEntries(s.queue[1..], s.visited);
      } else {
        assert u in ids - s.visited && u !in ids - n.visited;
      }
    }
  }

  // ---------------------------------------------------------------------------
  // The search

  /** What `findRoute` does: returns true after printing a route, returns false,
      throws while reading a node's name, never leaves the printing loop (which
      collects names without printing any), or throws because the start lookup
      found no node (the null start is polled and dereferenced) or more than one. */
  datatype Outcome = Found(route: seq<string>) | NoRoute | Threw(at: NodeId) | Diverges
                   | NoStartNode | ManyStartNodes

  /** A node named `k`, reachable from `start`, has an outgoing relationship to a
      node named `v`. */
  ghost predicate NamedEdge(g: Graph, start: NodeId, k: string, v: string) {
    exists u, t :: Reachable(g, start, u) && t in Successors(g, u) && StrName(g, u) == Some(k) && StrName(g, t) == Some(v)
  }

  /** No two distinct nodes reachable from `start` carry the same string name. */
  ghost predicate DistinctNames(g: Graph, start: NodeId) {
    forall a, b :: Reachable(g, start, a) && Reachable(g, start, b) && a != b && StrName(g, a).Some? ==>
      StrName(g, a) != StrName(g, b)
  }

  /** What the answer is when the goal is hit with the loop in state `s`. */
  lemma HitAnswer(g: Graph, start: NodeId, goal: Goal, s: Search)
    requires g.Valid() && Inv(g, start, goal, s) && |s.queue| > 0 && IdentityImpliesEquality(goal)
    requires g.Has(s.queue[0]) && GoalTest(g, s.queue[0], goal) == Pass
    ensures exists n: NodeId :: g.Has(n) && Reachable(g, start, n) && GoalTest(g, n, goal) == Pass
    ensures exists n: NodeId :: g.Has(n) && Reachable(g, start, n) && g.nodes[n].labelName == goal.labelName && StrName(g, n) == Some(goal.name)
    ensures Report(s.parents, goal.name).Found? ==>
      var route := Report(s.parents, goal.name).route;
      forall i :: 0 < i < |route| ==> NamedEdge(g, start, route[i], route[i - 1])
    ensures (forall n :: n in s.visited ==> StrName(g, n) != Some(goal.name)) ==> Report(s.parents, goal.name) == Found([goal.name])
    ensures DistinctNames(g, start) ==> Report(s.parents, goal.name) == Found([goal.name])
    ensures GoalTest(g, start, goal) == Pass ==> Report(s.parents, goal.name) == Found([goal.name])
  {
    var h := s.queue[0];
    assert h in s.queue;
    if goal.name in s.parents {
      var u, t :| Recorded(g, s.visited, u, t, goal.name, s.parents[goal.name]);
    }
    forall k | k in s.parents ensures NamedEdge(g, start, k, s.parents[k]) {
      var u, t :| Recorded(g, s.visited, u, t, k, s.parents[k]);
    }
  }

  /** The answer once the goal is hit: the printed route if the walk back through the
      name map ends, otherwise a printing loop that never exits. */
  function Report(parents: map<string, string>, name: string): (r: Outcome)
    ensures r.Found? || r.Diverges?
    ensures r.Found? ==> |r.route| > 0 && r.route[|r.route| - 1] == name
    ensures r.Found? ==> forall i :: 0 < i < |r.route| ==> r.route[i] in parents && parents[r.route[i]] == r.route[i - 1]
    ensures name !in parents ==> r == Found([name])
    ensures r.Diverges? ==> forall n :: Follow(parents, name, n).Some?
  {
    if Terminates(parents, name) then
      assert name !in parents ==> Walk(parents, name, {}) == Some([name]);
      Found(PrintRoute(parents, name))
    else
      TerminatesIffLoopExits(parents, name);
      Diverges
  }

  /** Why the loop stopped: the head of the queue passed the goal test, the queue
      ran empty, or a name read threw at node `at`. */
  datatype Halt = GoalHit | QueueEmpty | NameMissing(at: NodeId)

  /** The loop of `findRoute` from the start node. The returned state is the one
      in which the loop stopped. */
  method Explore(g: Graph, start: NodeId, goal: Goal) returns (s: Search, halt: Halt)
    requires g.Valid() && g.Has(start)
    ensures Inv(g, start, goal, s)
    ensures halt.GoalHit? <==> |s.queue| > 0 && GoalTest(g, s.queue[0], goal) == Pass
    ensures halt.QueueEmpty? ==> |s.queue| == 0
    ensures halt.NameMissing? ==> |s.queue| > 0 && g.Has(s.queue[0]) && Step(g, goal, s) == Crash(halt.at)
  {
    s := Search([start], {}, map[]);
    InitialInv(g, start, goal);
    while |s.queue| > 0
      invariant Inv(g, start, goal, s)
      decreases IdsBelow(|g.nodes|) - s.visited, VisitedEntries(s.queue, s.visited)
    {
      StepKeepsInv(g, start, goal, s);
      StepShrinks(g, goal, s);
      match Step(g, goal, s)
      case Hit =>
        return s, GoalHit;
      case Crash(at) =>
        return s, NameMissing(at);
      case Continue(next) =>
        s := next;
    }
    return s, QueueEmpty;
  }

  /** What the search from `start` promises about its answer `r`. */
  ghost predicate Answers(g: Graph, start: NodeId, goal: Goal, r: Outcome)
    requires g.Has(start)
  {
    // the start lookup succeeded
    && !r.NoStartNode? && !r.ManyStartNodes?
    // soundness: a true answer means a reachable node passed the goal test, so it
    // has the goal's label and name
    && (r.Found? || r.Diverges? ==>
      exists n: NodeId :: g.Has(n) && Reachable(g, start, n) && GoalTest(g, n, goal) == Pass)
    && (r.Found? || r.Diverges? ==>
      exists n: NodeId :: g.Has(n) && Reachable(g, start, n) && g.nodes[n].labelName == goal.labelName && StrName(g, n) == Some(goal.name))
    // exhaustiveness: false means every reachable node failed the test
    && (r.NoRoute? ==> forall n: NodeId :: g.Has(n) && Reachable(g, start, n) ==> GoalTest(g, n, goal) == Fail)
    // false means every reachable node other than the start has a string name
    && (r.NoRoute? ==> forall n: NodeId :: g.Has(n) && Reachable(g, start, n) && n != start ==> StrName(g, n).Some?)
    // a throw happens at a reachable node without a string name, whose name the code reads
    && (r.Threw? ==> Reachable(g, start, r.at) && StrName(g, r.at).None? && NameRead(g, start, goal, r.at))
    // when the first iteration throws, the search throws there
    && (StartThrows(g, start, goal) ==> r == Threw(StartThrowAt(g, start)))
    // the printed route ends at the goal name; each name in it is that of a reachable
    // node with a relationship to a node named by the name printed before it
    && (r.Found? ==> |r.route| > 0 && r.route[|r.route| - 1] == goal.name)
    && (r.Found? ==> forall i :: 0 < i < |r.route| ==> NamedEdge(g, start, r.route[i], r.route[i - 1]))
    // a start node that passes the test is reported at once, with the route [name2]
    && (GoalTest(g, start, goal) == Pass ==> r == Found([goal.name]))
    // the printing ends with [name2] alone unless a reachable node that fails the
    // test carries the goal name
    && ((forall n: NodeId :: g.Has(n) && Reachable(g, start, n) && GoalTest(g, n, goal) == Fail ==> StrName(g, n) != Some(goal.name)) ==>
      !r.Diverges? && (r.Found? ==> r.route == [goal.name]))
    // with distinct names the printing ends, and prints [name2]
    && (DistinctNames(g, start) ==> !r.Diverges? && (r.Found? ==> r.route == [goal.name]))
  }

  /** On a hit, the reported answer keeps the promises of the search. */
  lemma HitAnswers(g: Graph, start: NodeId, goal: Goal, s: Search)
    requires g.Valid() && g.Has(start) && Inv(g, start, goal, s) && |s.queue| > 0 && IdentityImpliesEquality(goal)
    requires g.Has(s.queue[0]) && GoalTest(g, s.queue[0], goal) == Pass
    ensures Answers(g, start, goal, Report(s.parents, goal.name))
  {
    HitAnswer(g, start, goal, s);
  }

  /** When the queue runs empty, false keeps the promises of the search. */
  lemma EmptyAnswers(g: Graph, start: NodeId, goal: Goal, s: Search)
    requires g.Valid() && g.Has(start) && Inv(g, start, goal, s) && |s.queue| == 0
    ensures Answers(g, start, goal, NoRoute)
  {
    ClosedSetHoldsReachable(g, start, s.visited);
  }

  /** When an iteration throws, the throw keeps the promises of the search. */
  lemma CrashAnswers(g: Graph, start: NodeId, goal: Goal, s: Search, at: NodeId)
    requires g.Valid() && g.Has(start) && Inv(g, start, goal, s) && |s.queue| > 0
    requires g.Has(s.queue[0]) && Step(g, goal, s) == Crash(at)
    ensures Answers(g, start, goal, Threw(at))
  {
    StepKeepsInv(g, start, goal, s);
    if StartThrows(g, start, goal) {
      StartThrowsCrashes(g, start, goal);
    }
  }

  /** The body of `findRoute` once the start node is known. */
  method SearchFrom(g: Graph, start: NodeId, goal: Goal) returns (r: Outcome)
    requires g.Valid() && g.Has(start)
    requires IdentityImpliesEquality(goal)
    ensures Answers(g, start, goal, r)
  {
    var s, halt := Explore(g, start, goal);
    match halt
    case GoalHit =>
      HitAnswers(g, start, goal, s);
      r := Report(s.parents, goal.name);
    case NameMissing(at) =>
      CrashAnswers(g, start, goal, s, at);
      r := Threw(at);
    case QueueEmpty =>
      EmptyAnswers(g, start, goal, s);
      r := NoRoute;
  }

  /** `findRoute(label1, name1, goal.labelName, goal.name)`: the lookup of the start
      node, then the search from it. */
  method FindRoute(g: Graph, label1: string, name1: string, goal: Goal) returns (r: Outcome)
    requires g.Valid()
    requires IdentityImpliesEquality(goal)
    ensures r.NoStartNode? <==> FindNode(g, label1, name1).NoMatch?
    ensures r.ManyStartNodes? <==> FindNode(g, label1, name1).Ambiguous?
    ensures FindNode(g, label1, name1).Unique? ==> Answers(g, FindNode(g, label1, name1).id, goal, r)
  {
    var lookup := FindNode(g, label1, name1);
    if lookup.NoMatch? {
      return NoStartNode;
    } else if lookup.Ambiguous? {
      return ManyStartNodes;
    }
    r := SearchFrom(g, lookup.id, goal);
  }
}

=== FILE: demo.dfy ===
/** The demonstration data `populate` loads: A-nodes "1".."5", B-nodes "11".."55",
    C-nodes "111".."555", X relationships from A to B and Y relationships from B
    to C, created in the order the calls are made. */
module Demo {
  import opened Wrappers
  import opened PropertyGraph
  import opened Bfs

  /** One `createNodeA/B/C(name)` call: the label and the name. */
  datatype NodeCall = NodeCall(labelName: string, name: string) {
    function Made(): Node { Node(labelName, map[NameKey := Str(name)]) }
  }

  /** One `createRelationshipX/Y(node1, node2)` call. */
  datatype RelCall = RelCall(node1: NodeId, node2: NodeId, relType: string) {
    function Made(): Relationship { Relationship(node1, node2, relType) }
  }

  /** The node creations of `populate`, in order; the i-th creation gets id i. */
  const NodeCalls: seq<NodeCall> := [
    NodeCall("A", "1"), NodeCall("A", "2"), NodeCall("A", "3"), NodeCall("A", "4"), NodeCall("A", "5"),
    NodeCall("B", "11"), NodeCall("B", "22"), NodeCall("B", "33"), NodeCall("B", "44"), NodeCall("B", "55"),
    NodeCall("C", "111"), NodeCall("C", "222"), NodeCall("C", "333"), NodeCall("C", "444"), NodeCall("C", "555")
  ]

  /** The relationship creations of `populate`, in order, by node id. */
  const RelCalls: seq<RelCall> := [
    RelCall(0, 7, "X"), RelCall(0, 8, "X"), RelCall(0, 5, "X"), RelCall(1, 5, "X"),
    RelCall(1, 7, "X"), RelCall(2, 6, "X"), RelCall(2, 7, "X"), RelCall(3, 7, "X"),
    RelCall(3, 6, "X"), RelCall(4, 9, "X"), RelCall(4, 7, "X"), RelCall(4, 5, "X"),
    RelCall(5, 10, "Y"), RelCall(5, 13, "Y"), RelCall(5, 12, "Y"), RelCall(6, 14, "Y"),
    RelCall(6, 11, "Y"), RelCall(7, 12, "Y"), RelCall(7, 11, "Y"), RelCall(7, 10, "Y"),
    RelCall(8, 14, "Y"), RelCall(9, 13, "Y"), RelCall(9, 10, "Y")
  ]

  /** The nodes `calls` make, in order. */
  function NodesMade(calls: seq<NodeCall>): (r: seq<Node>)
    ensures |r| == |calls| && forall i :: 0 <= i < |calls| ==> r[i] == calls[i].Made()
  {
    seq(|calls|, i requires 0 <= i < |calls| => calls[i].Made())
  }

  /** The relationships `calls` make, in order. */
  function RelationshipsMade(calls: seq<RelCall>): (r: seq<Relationship>)
    ensures |r| == |calls| && forall i :: 0 <= i < |calls| ==> r[i] == calls[i].Made()
  {
    seq(|calls|, i requires 0 <= i < |calls| => calls[i].Made())
  }

  lemma NodesMadeExtend(calls: seq<NodeCall>, k: nat)
    requires k < |calls|
    ensures NodesMade(calls[..k + 1]) == NodesMade(calls[..k]) + [calls[k].Made()]
  {
    assert forall i :: 0 <= i < k ==> calls[..k + 1][i] == calls[..k][i];
  }

  lemma RelationshipsMadeExtend(calls: seq<RelCall>, k: nat)
    requires k < |calls|
    ensures RelationshipsMade(calls[..k + 1]) == RelationshipsMade(calls[..k]) + [calls[k].Made()]
  {
    assert forall i :: 0 <= i < k ==> calls[..k + 1][i] == calls[..k][i];
  }

  lemma CallsInRange()
    ensures forall i :: 0 <= i < |RelCalls| ==> RelCalls[i].node1 < 10 && RelCalls[i].node2 < |NodeCalls|
    ensures forall i :: 0 <= i < |RelCalls| ==> RelCalls[i].relType == "X" || RelCalls[i].relType == "Y"
  {
  }

  lemma LabelsABC()
    ensures forall i :: 0 <= i < |NodeCalls| ==>
      NodeCalls[i].labelName == "A" || NodeCalls[i].labelName == "B" || NodeCalls[i].labelName == "C"
  {
  }

  /** `g` holds node i as the i-th node call makes it and relationship i as the
      i-th relationship call makes it, and nothing else. */
  ghost predicate Populated(g: Graph) {
    && g.nodes == NodesMade(NodeCalls)
    && g.relationships == RelationshipsMade(RelCalls)
  }

  /** `populate` run on an empty store: the node calls, then the relationship
      calls, none of which throws. */
  method Populate() returns (g: Graph)
    ensures Populated(g)
  {
    g := EmptyGraph;
    LabelsABC();
    for k := 0 to |NodeCalls|
      invariant g.nodes == NodesMade(NodeCalls[..k]) && g.relationships == []
    {
      var call := NodeCalls[k];
      var c :=
        if call.labelName == "A" then CreateNodeA(g, call.name)
        else if call.labelName == "B" then CreateNodeB(g, call.name)
        else CreateNodeC(g, call.name);
      assert c.graph.nodes == g.nodes + [call.Made()];
      NodesMadeExtend(NodeCalls, k);
      g := c.graph;
    }
    assert NodeCalls[..|NodeCalls|] == NodeCalls;
    ghost var nodes := g.nodes;
    CallsInRange();
    for k := 0 to |RelCalls|
      invariant g.nodes == nodes && g.relationships == RelationshipsMade(RelCalls[..k])
    {
      var call := RelCalls[k];
      var r :=
        if call.relType == "X" then CreateRelationshipX(g, call.node1, call.node2)
        else CreateRelationshipY(g, call.node1, call.node2);
      RelationshipsMadeExtend(RelCalls, k);
      g := r.value.graph;
    }
    assert RelCalls[..|RelCalls|] == RelCalls;
  }

  lemma PopulatedValid(g: Graph)
    requires Populated(g)
    ensures g.Valid()
    ensures forall rel :: rel in g.relationships ==> rel.start < 10
  {
    CallsInRange();
    forall rel | rel in g.relationships ensures g.Has(rel.start) && g.Has(rel.end) && rel.start < 10 {
      var i :| 0 <= i < |g.relationships| && g.relationships[i] == rel;
    }
  }

  lemma PopulatedNames(g: Graph)
    requires Populated(g)
    ensures forall i :: 0 <= i < |g.nodes| ==> StrName(g, i) == Some(NodeCalls[i].name)
  {
  }

  lemma NamesOnce()
    ensures forall i :: 0 <= i < |NodeCalls| && i != 10 ==> NodeCalls[i].name != "111"
    ensures forall i :: 0 <= i < |NodeCalls| && i != 0 ==> NodeCalls[i] != NodeCall("A", "1")
    ensures forall i :: 0 <= i < |NodeCalls| && i != 10 ==> NodeCalls[i] != NodeCall("C", "111")
  {
  }

  /** A node of the populated graph matches a label and name only when its call
      had them. */
  lemma MatchesCall(g: Graph, labelName: string, name: string)
    requires Populated(g)
    ensures forall j: NodeId :: g.Has(j) && Matches(g, j, labelName, name) ==> NodeCalls[j] == NodeCall(labelName, name)
  {
  }

  lemma StartsUnique(g: Graph)
    requires Populated(g)
    ensures FindNode(g, "A", "1") == Unique(0)
    ensures FindNode(g, "C", "111") == Unique(10)
  {
    NamesOnce();
    MatchesCall(g, "A", "1");
    OnlyMatch(g, 0, "A", "1");
    MatchesCall(g, "C", "111");
    OnlyMatch(g, 10, "C", "111");
  }

  /** The k-th relationship call makes an edge of the populated graph. */
  lemma CallMakesEdge(g: Graph, k: nat, a: NodeId, b: NodeId)
    requires Populated(g) && k < |RelCalls| && RelCalls[k].node1 == a && RelCalls[k].node2 == b
    ensures b in Successors(g, a)
  {
    assert g.relationships[k] in g.relationships;
  }

  lemma TwoSteps(g: Graph, a: NodeId, b: NodeId, c: NodeId)
    requires g.Has(a) && g.Has(b) && g.Has(c) && b in Successors(g, a) && c in Successors(g, b)
    ensures Reachable(g, a, c)
  {
    assert IsPath(g, [a, b, c]);
  }

  /** `createRelationshipX(a1, b1)` and `createRelationshipY(b1, c1)`. */
  lemma ForwardCalls()
    ensures RelCalls[2] == RelCall(0, 5, "X") && RelCalls[12] == RelCall(5, 10, "Y")
  {
  }

  lemma ForwardReachable(g: Graph)
    requires Populated(g)
    ensures Reachable(g, 0, 10)
  {
    ForwardCalls();
    CallMakesEdge(g, 2, 0, 5);
    CallMakesEdge(g, 12, 5, 10);
    TwoSteps(g, 0, 5, 10);
  }

  lemma NothingLeavesC(g: Graph)
    requires Populated(g)
    ensures forall n :: Reachable(g, 10, n) ==> n == 10
  {
    PopulatedValid(g);
    ClosedSetHoldsReachable(g, 10, {10});
  }

  /** A node whose call had the goal's label and name passes the test when that
      name is the same object as the goal name. */
  lemma CallPasses(g: Graph, i: NodeId, goal: Goal)
    requires Populated(g) && i < |NodeCalls| && NodeCalls[i] == NodeCall(goal.labelName, goal.name)
    requires goal.sameRef(goal.name, goal.name)
    ensures GoalTest(g, i, goal) == Pass
  {
    assert g.nodes[i] == NodeCalls[i].Made();
  }

  /** When the goal name is not the same object as itself, no node passes the test. */
  lemma NonePasses(g: Graph, goal: Goal)
    requires IdentityImpliesEquality(goal) && !goal.sameRef(goal.name, goal.name)
    ensures forall n: NodeId :: g.Has(n) ==> GoalTest(g, n, goal) != Pass
  {
  }

  lemma StartCalls()
    ensures NodeCalls[0] == NodeCall("A", "1") && NodeCalls[10] == NodeCall("C", "111")
  {
  }

  /** From A "1" the search for C "111" prints the single name "111" when the name
    read back from C "111" is the same object as the goal name, and answers false
    otherwise: C "111" is reachable and is the only node that can pass, every node
    has a name, and no other node is named "111". */
  lemma ForwardAnswer(g: Graph, goal: Goal, r: Outcome)
    requires Populated(g) && IdentityImpliesEquality(goal) && goal.labelName == "C" && goal.name == "111"
    requires Answers(g, 0, goal, r)
    ensures r == if goal.sameRef("111", "111") then Found(["111"]) else NoRoute
  {
    if goal.sameRef("111", "111") {
      ForwardPasses(g, goal, r);
    } else {
      PopulatedNames(g);
      NonePasses(g, goal);
    }
  }

  lemma ForwardPasses(g: Graph, goal: Goal, r: Outcome)
    requires Populated(g) && goal.labelName == "C" && goal.name == "111" && goal.sameRef("111", "111")
    requires Answers(g, 0, goal, r)
    ensures r == Found(["111"])
  {
    ForwardFacts(g, goal);
    ReachedOnce(g, 0, goal, r, 10);
  }

  /** C "111" is reachable from A "1" and passes, every node has a name, and no other
      node is named "111". */
  lemma ForwardFacts(g: Graph, goal: Goal)
    requires Populated(g) && goal.labelName == "C" && goal.name == "111" && goal.sameRef("111", "111")
    ensures g.Has(0) && g.Has(10) && Reachable(g, 0, 10) && GoalTest(g, 10, goal) == Pass
    ensures forall m: NodeId :: g.Has(m) ==> StrName(g, m).Some?
    ensures forall m: NodeId :: g.Has(m) && GoalTest(g, m, goal) == Fail ==> StrName(g, m) != Some(goal.name)
  {
    PopulatedNames(g);
    NamesOnce();
    StartCalls();
    ForwardReachable(g);
    CallPasses(g, 10, goal);
  }

  /** A node reachable from the start passes, every node has a name, and no node that
      fails carries the goal name: then the search prints the goal name alone. */
  lemma ReachedOnce(g: Graph, start: NodeId, goal: Goal, r: Outcome, n: NodeId)
    requires g.Has(start) && g.Has(n) && Reachable(g, start, n) && GoalTest(g, n, goal) == Pass
    requires forall m: NodeId :: g.Has(m) ==> StrName(g, m).Some?
    requires forall m: NodeId :: g.Has(m) && GoalTest(g, m, goal) == Fail ==> StrName(g, m) != Some(goal.name)
    requires Answers(g, start, goal, r)
    ensures r == Found([goal.name])
  {
  }

  /** From C "111" nothing else is reachable and C "111" fails a test for label A,
      so the search for A "1" answers false. */
  lemma BackwardAnswer(g: Graph, goal: Goal, r: Outcome)
    requires Populated(g) && goal.labelName == "A" && Answers(g, 10, goal, r)
    ensures r == NoRoute
  {
    BackwardFacts(g, goal);
    NoneReached(g, 10, goal, r);
  }

  /** Only C "111" is reachable from itself, it fails a test for label A, and every
      node has a name. */
  lemma BackwardFacts(g: Graph, goal: Goal)
    requires Populated(g) && goal.labelName == "A"
    ensures g.Has(10) && GoalTest(g, 10, goal) == Fail
    ensures forall n :: Reachable(g, 10, n) ==> n == 10
    ensures forall m: NodeId :: g.Has(m) ==> StrName(g, m).Some?
  {
    PopulatedNames(g);
    NothingLeavesC(g);
  }

  /** Only the start is reachable, it fails, and every node has a name: then the
      search answers false. */
  lemma NoneReached(g: Graph, start: NodeId, goal: Goal, r: Outcome)
    requires g.Has(start) && GoalTest(g, start, goal) == Fail
    requires forall n :: Reachable(g, start, n) ==> n == start
    requires forall m: NodeId :: g.Has(m) ==> StrName(g, m).Some?
    requires Answers(g, start, goal, r)
    ensures r == NoRoute
  {
  }

  /** `findRoute("A", "1", "C", "111")` on the populated store prints the single
      name "111" exactly when the name read back from C "111" is the same object as
      the argument "111", and otherwise finds no path; `findRoute("C", "111", "A", "1")`
      finds no path, since no relationship leaves a C-node. `sameRef` is the
      reference comparison, which identical strings pass only if they are equal. */
  method PopulatedRoutes(sameRef: (string, string) -> bool) returns (forward: Outcome, backward: Outcome)
    requires forall a, b :: sameRef(a, b) ==> a == b
    ensures forward == if sameRef("111", "111") then Found(["111"]) else NoRoute
    ensures backward == NoRoute
  {
    var g := Populate();
    PopulatedValid(g);
    StartsUnique(g);
    forward := FindRoute(g, "A", "1", Goal("C", "111", sameRef));
    ForwardAnswer(g, Goal("C", "111", sameRef), forward);
    backward := FindRoute(g, "C", "111", Goal("A", "1", sameRef));
    BackwardAnswer(g, Goal("A", "1", sameRef), backward);
  }
}

=== FILE: graph.dfy ===
/** The property graph held by the store: labelled nodes carrying properties and
    typed, directed relationships between them. Node and relationship identifiers
    are positions in creation order, so they are never reused. */
module PropertyGraph {
  import opened Wrappers

  type NodeId = nat
  type RelId = nat

  /** The property key every lookup and traversal uses. */
  const NameKey: string := "name"

  /** A property value; the store accepts strings, integers and booleans. */
  datatype Value = Str(s: string) | Int(i: int) | Bool(b: bool)

  /** A node as created: exactly one label and its property map. */
  datatype Node = Node(labelName: string, properties: map<string, Value>)

  /** A directed relationship from `start` to `end` with a type name. */
  datatype Relationship = Relationship(start: NodeId, end: NodeId, relType: string)

  datatype Graph = Graph(nodes: seq<Node>, relationships: seq<Relationship>) {

    predicate Has(id: NodeId) {
      id < |nodes|
    }

    /** Every relationship joins two nodes of this graph. */
    ghost predicate Valid() {
      forall r :: r in relationships ==> Has(r.start) && Has(r.end)
    }
  }

  /** The empty store. */
  const EmptyGraph: Graph := Graph([], [])

  /** The outcome of a creation: the new graph and the identifier it assigned. */
  datatype Created = Created(graph: Graph, id: nat)

  /** A relationship endpoint that is not a node of the store. */
  datatype GraphError = NodeNotFound(id: NodeId)

  /** The node's "name" property when it holds a string, the only case in which a
      cast of it to a string succeeds. */
  function StrName(g: Graph, id: NodeId): (r: Option<string>)
    ensures r.Some? <==> g.Has(id) && NameKey in g.nodes[id].properties && g.nodes[id].properties[NameKey].Str?
    ensures r.Some? ==> g.nodes[id].properties[NameKey] == Str(r.value)
  {
    if g.Has(id) && NameKey in g.nodes[id].properties then
      match g.nodes[id].properties[NameKey]
      case Str(s) => Some(s)
      case _ => None
    else None
  }

  // ---------------------------------------------------------------------------
  // Creation

  /** Adds a node with `labelName` whose properties are exactly `properties`. */
  function CreateNode(g: Graph, labelName: string, properties: map<string, Value>): (r: Created)
    ensures !g.Has(r.id) && r.graph.Has(r.id)
    ensures r.graph.nodes[r.id].labelName == labelName
    ensures r.graph.nodes[r.id].properties.Keys == properties.Keys
    ensures forall k :: k in properties ==> r.graph.nodes[r.id].properties[k] == properties[k]
    ensures |r.graph.nodes| == |g.nodes| + 1
    ensures forall i :: 0 <= i < |g.nodes| ==> r.graph.nodes[i] == g.nodes[i]
    ensures r.graph.relationships == g.relationships
    ensures g.Valid() ==> r.graph.Valid()
  {
    Created(Graph(g.nodes + [Node(labelName, properties)], g.relationships), |g.nodes|)
  }

  /** Adds a node with `labelName` whose only property is the string `name`. */
  function CreateNamedNode(g: Graph, labelName: string, name: string): (r: Created)
    ensures !g.Has(r.id) && r.graph.Has(r.id)
    ensures r.graph.nodes[r.id].labelName == labelName
    ensures r.graph.nodes[r.id].properties.Keys == {NameKey}
    ensures StrName(r.graph, r.id) == Some(name)
    ensures forall i :: 0 <= i < |g.nodes| ==> r.graph.nodes[i] == g.nodes[i]
    ensures |r.graph.nodes| == |g.nodes| + 1 && r.graph.relationships == g.relationships
    ensures g.Valid() ==> r.graph.Valid()
  {
    CreateNode(g, labelName, map[NameKey := Str(name)])
  }

  function CreateNodeA(g: Graph, name: string): (r: Created)
    ensures !g.Has(r.id) && r.graph.Has(r.id)
    ensures r.graph.nodes[r.id].labelName == "A"
    ensures r.graph.nodes[r.id].properties.Keys == {NameKey} && StrName(r.graph, r.id) == Some(name)
    ensures forall i :: 0 <= i < |g.nodes| ==> r.graph.nodes[i] == g.nodes[i]
    ensures |r.graph.nodes| == |g.nodes| + 1 && r.graph.relationships == g.relationships
    ensures g.Valid() ==> r.graph.Valid()
  {
    CreateNamedNode(g, "A", name)
  }

  function CreateNodeB(g: Graph, name: string): (r: Created)
    ensures !g.Has(r.id) && r.graph.Has(r.id)
    ensures r.graph.nodes[r.id].labelName == "B"
    ensures r.graph.nodes[r.id].properties.Keys == {NameKey} && StrName(r.graph, r.id) == Some(name)
    ensures forall i :: 0 <= i < |g.nodes| ==> r.graph.nodes[i] == g.nodes[i]
    ensures |r.graph.nodes| == |g.nodes| + 1 && r.graph.relationships == g.relationships
    ensures g.Valid() ==> r.graph.Valid()
  {
    CreateNamedNode(g, "B", name)
  }

  function CreateNodeC(g: Graph, name: string): (r: Created)
    ensures !g.Has(r.id) && r.graph.Has(r.id)
    ensures r.graph.nodes[r.id].labelName == "C"
    ensures r.graph.nodes[r.id].properties.Keys == {NameKey} && StrName(r.graph, r.id) == Some(name)
    ensures forall i :: 0 <= i < |g.nodes| ==> r.graph.nodes[i] == g.nodes[i]
    ensures |r.graph.nodes| == |g.nodes| + 1 && r.graph.relationships == g.relationships
    ensures g.Valid() ==> r.graph.Valid()
  {
    CreateNamedNode(g, "C", name)
  }

  /** Adds one relationship `node1 -[relType]-> node2`; an endpoint that is not a
      node of the store is refused and the store is left as it was. */
  function CreateRelationship(g: Graph, node1: NodeId, node2: NodeId, relType: string): (r: Result<Created, GraphError>)
    ensures r.Failure? <==> !g.Has(node1) || !g.Has(node2)
    ensures r.Failure? ==> r.error == NodeNotFound(if g.Has(node1) then node2 else node1)
    ensures r.Success? ==> r.value.graph.nodes == g.nodes
    ensures r.Success? ==> r.value.id == |g.relationships| && |r.value.graph.relationships| == |g.relationships| + 1
    ensures r.Success? ==> r.value.graph.relationships[r.value.id] == Relationship(node1, node2, relType)
    ensures r.Success? ==> forall i :: 0 <= i < |g.relationships| ==> r.value.graph.relationships[i] == g.relationships[i]
    ensures r.Success? ==> Outgoing(r.value.graph, node1) == Outgoing(g, node1) + [Relationship(node1, node2, relType)]
    ensures r.Success? ==> forall u :: u != node1 ==> Outgoing(r.value.graph, u) == Outgoing(g, u)
    ensures r.Success? ==> Successors(r.value.graph, node1) == Successors(g, node1) + [node2]
    ensures r.Success? && g.Valid() ==> r.value.graph.Valid()
  {
    if !g.Has(node1) then Failure(NodeNotFound(node1))
    else if !g.Has(node2) then Failure(NodeNotFound(node2))
    else
      var rel := Relationship(node1, node2, relType);
      var g' := Graph(g.nodes, g.relationships + [rel]);
      assert g'.relationships[..|g.relationships|] == g.relationships;
      Success(Created(g', |g.relationships|))
  }

  function CreateRelationshipX(g: Graph, node1: NodeId, node2: NodeId): (r: Result<Created, GraphError>)
    ensures r.Failure? <==> !g.Has(node1) || !g.Has(node2)
    ensures r.Success? ==> r.value.graph.nodes == g.nodes
    ensures r.Success? ==> r.value.graph.relationships == g.relationships + [Relationship(node1, node2, "X")]
    ensures r.Success? ==> Successors(r.value.graph, node1) == Successors(g, node1) + [node2]
    ensures r.Success? ==> forall u :: u != node1 ==> Outgoing(r.value.graph, u) == Outgoing(g, u)
    ensures r.Success? && g.Valid() ==> r.value.graph.Valid()
  {
    CreateRelationship(g, node1, node2, "X")
  }

  function CreateRelationshipY(g: Graph, node1: NodeId, node2: NodeId): (r: Result<Created, GraphError>)
    ensures r.Failure? <==> !g.Has(node1) || !g.Has(node2)
    ensures r.Success? ==> r.value.graph.nodes == g.nodes
    ensures r.Success? ==> r.value.graph.relationships == g.relationships + [Relationship(node1, node2, "Y")]
    ensures r.Success? ==> Successors(r.value.graph, node1) == Successors(g, node1) + [node2]
    ensures r.Success? ==> forall u :: u != node1 ==> Outgoing(r.value.graph, u) == Outgoing(g, u)
    ensures r.Success? && g.Valid() ==> r.value.graph.Valid()
  {
    CreateRelationship(g, node1, node2, "Y")
  }

  // ---------------------------------------------------------------------------
  // Adjacency

  /** The relationships of `rels` that start at `u`, in creation order. */
  function OutgoingIn(rels: seq<Relationship>, u: NodeId): (r: seq<Relationship>)
    ensures forall x :: x in r <==> x in rels && x.start == u
    ensures |r| <= |rels|
  {
    if |rels| == 0 then []
    else
      var last := rels[|rels| - 1];
      OutgoingIn(rels[..|rels| - 1], u) + (if last.start == u then [last] else [])
  }

  /** The relationships leaving `u` (direction OUTGOING), in enumeration order. */
  function Outgoing(g: Graph, u: NodeId): seq<Relationship> {
    OutgoingIn(g.relationships, u)
  }

  /** The end nodes of `u`'s outgoing relationships, one entry per relationship. */
  function Successors(g: Graph, u: NodeId): (r: seq<NodeId>)
    ensures |r| == |Outgoing(g, u)|
    ensures forall i :: 0 <= i < |r| ==> r[i] == Outgoing(g, u)[i].end
    ensures forall t :: t in r <==> exists rel :: rel in g.relationships && rel.start == u && rel.end == t
    ensures g.Valid() ==> forall t :: t in r ==> g.Has(t)
  {
    var out := Outgoing(g, u);
    var r := seq(|out|, i requires 0 <= i < |out| => out[i].end);
    assert forall t :: t in r ==> exists rel :: rel in out && rel.end == t by {
      forall t | t in r ensures exists rel :: rel in out && rel.end == t {
        var i :| 0 <= i < |r| && r[i] == t;
        assert out[i] in out;
      }
    }
    assert forall rel :: rel in out ==> rel.end in r by {
      forall rel | rel in out ensures rel.end in r {
        var i :| 0 <= i < |out| && out[i] == rel;
        assert r[i] == rel.end;
      }
    }
    r
  }

  // ---------------------------------------------------------------------------
  // Lookup

  /** A node with `labelName` whose "name" property equals `name` by value. */
  predicate Matches(g: Graph, id: NodeId, labelName: string, name: string)
    requires g.Has(id)
  {
    g.nodes[id].labelName == labelName && NameKey in g.nodes[id].properties && g.nodes[id].properties[NameKey] == Str(name)
  }

  /** The identifiers, from `from` on, of the nodes that match, in increasing order. */
  function MatchingFrom(g: Graph, labelName: string, name: string, from: nat): (r: seq<NodeId>)
    decreases |g.nodes| - from
    ensures forall i :: i in r <==> from <= i && g.Has(i) && Matches(g, i, labelName, name)
    ensures forall a, b :: 0 <= a < b < |r| ==> r[a] < r[b]
  {
    if from >= |g.nodes| then []
    else
      var rest := MatchingFrom(g, labelName, name, from + 1);
      assert forall b :: 0 <= b < |rest| ==> rest[b] in rest;
      if Matches(g, from, labelName, name) then [from] + rest else rest
  }

  /** The answer of a lookup by labelName and name: no node, exactly one, or several. */
  datatype Lookup = NoMatch | Unique(id: NodeId) | Ambiguous

  /** Lookup of the node with `labelName` whose "name" equals `name` (by value). */
  function FindNode(g: Graph, labelName: string, name: string): (r: Lookup)
    ensures r.NoMatch? <==> forall i :: g.Has(i) ==> !Matches(g, i, labelName, name)
    ensures r.Unique? <==> exists i :: g.Has(i) && Matches(g, i, labelName, name) && forall j :: g.Has(j) && Matches(g, j, labelName, name) ==> j == i
    ensures r.Unique? ==> g.Has(r.id) && Matches(g, r.id, labelName, name)
    ensures r.Ambiguous? ==> exists i, j :: i != j && g.Has(i) && g.Has(j) && Matches(g, i, labelName, name) && Matches(g, j, labelName, name)
  {
    var ms := MatchingFrom(g, labelName, name, 0);
    if |ms| == 0 then
      assert forall i :: g.Has(i) && Matches(g, i, labelName, name) ==> i in ms;
      NoMatch
    else if |ms| == 1 then
      assert ms[0] in ms;
      assert forall j :: j in ms ==> j == ms[0];
      Unique(ms[0])
    else
      assert ms[0] != ms[1] && ms[0] in ms && ms[1] in ms;
      Ambiguous
  }

  /** A node that is the only match is what the lookup finds. */
  lemma OnlyMatch(g: Graph, i: NodeId, labelName: string, name: string)
    requires g.Has(i) && Matches(g, i, labelName, name)
    requires forall j: NodeId :: g.Has(j) && Matches(g, j, labelName, name) ==> j == i
    ensures FindNode(g, labelName, name) == Unique(i)
  {
  }

  /** Two distinct matches make the lookup ambiguous. */
  lemma TwoMatches(g: Graph, i: NodeId, j: NodeId, labelName: string, name: string)
    requires i != j && g.Has(i) && g.Has(j) && Matches(g, i, labelName, name) && Matches(g, j, labelName, name)
    ensures FindNode(g, labelName, name) == Ambiguous
  {
  }

  /** A node created with a label and name is what a lookup by them finds, unless
      an older node already matched, in which case the lookup finds several. */
  lemma CreatedNodeIsFound(g: Graph, labelName: string, name: string)
    ensures var c := CreateNamedNode(g, labelName, name);
      FindNode(c.graph, labelName, name) == if FindNode(g, labelName, name).NoMatch? then Unique(c.id) else Ambiguous
  {
    var c := CreateNamedNode(g, labelName, name);
    var g' := c.graph;
    assert g'.nodes == g.nodes + [Node(labelName, map[NameKey := Str(name)])];
    assert Matches(g', c.id, labelName, name);
    if FindNode(g, labelName, name).NoMatch? {
      forall j: NodeId | g'.Has(j) && Matches(g', j, labelName, name) ensures j == c.id {
        if j < |g.nodes| {
          assert Matches(g, j, labelName, name);
        }
      }
      OnlyMatch(g', c.id, labelName, name);
    } else {
      var i: NodeId :| g.Has(i) && Matches(g, i, labelName, name);
      assert g'.nodes[i] == g.nodes[i];
      TwoMatches(g', i, c.id, labelName, name);
    }
  }

  // ---------------------------------------------------------------------------
  // Reachability along outgoing relationships

  /** A non-empty walk of nodes, each step following an outgoing relationship. */
  ghost predicate IsPath(g: Graph, p: seq<NodeId>) {
    && |p| > 0
    && (forall i :: 0 <= i < |p| ==> g.Has(p[i]))
    && (forall i :: 0 <= i < |p| - 1 ==> p[i + 1] in Successors(g, p[i]))
  }

  ghost predicate Reachable(g: Graph, a: NodeId, b: NodeId) {
    exists p :: IsPath(g, p) && p[0] == a && p[|p| - 1] == b
  }

  lemma ReachableFromItself(g: Graph, a: NodeId)
    requires g.Has(a)
    ensures Reachable(g, a, a)
  {
    assert IsPath(g, [a]);
  }

  /** Reachability extends along one more outgoing relationship. */
  lemma ReachableStep(g: Graph, a: NodeId, u: NodeId, v: NodeId)
    requires g.Valid() && Reachable(g, a, u) && v in Successors(g, u)
    ensures Reachable(g, a, v)
  {
    var p :| IsPath(g, p) && p[0] == a && p[|p| - 1] == u;
    var q := p + [v];
    assert IsPath(g, q);
  }

  /** A set closed under outgoing relationships holds the last node of every path
      that starts inside it. */
  lemma {:induction false} PathStaysIn(g: Graph, p: seq<NodeId>, s: set<NodeId>)
    requires IsPath(g, p) && p[0] in s
    requires forall v, t :: v in s && t in Successors(g, v) ==> t in s
    ensures p[|p| - 1] in s
    decreases |p|
  {
    if |p| > 1 {
      var q := p[..|p| - 1];
      assert IsPath(g, q);
      PathStaysIn(g, q, s);
      assert p[|p| - 1] in Successors(g, q[|q| - 1]);
    }
  }

  /** Every node reachable from a member of a successor-closed set is in the set. */
  lemma ClosedSetHoldsReachable(g: Graph, a: NodeId, s: set<NodeId>)
    requires a in s
    requires forall v, t :: v in s && t in Successors(g, v) ==> t in s
    ensures forall b :: Reachable(g, a, b) ==> b in s
  {
    forall b | Reachable(g, a, b) ensures b in s {
      var p :| IsPath(g, p) && p[0] == a && p[|p| - 1] == b;
      PathStaysIn(g, p, s);
    }
  }
}

=== FILE: route.dfy ===
/** Path reporting: the walk `printRoute` makes through the parent map, starting
    from the goal name and following `parents.get` until a name has no entry,
    followed by the reversal of the collected names. */
module Route {
  import opened Wrappers

  /** The names the walk collects from `node` on, given that the names in `seen`
      were already collected; None once a name comes round again, because from then
      on the walk repeats the same names forever. */
  function Walk(parents: map<string, string>, node: string, seen: set<string>): (chain: Option<seq<string>>)
    decreases parents.Keys - seen
    ensures chain.Some? ==> IsChain(parents, node, chain.value)
    ensures chain.Some? ==> forall i :: 0 <= i < |chain.value| - 1 ==> chain.value[i] !in seen
  {
    if node !in parents then Some([node])
    else if node in seen then None
    else
      assert node in parents.Keys - seen;
      match Walk(parents, parents[node], seen + {node})
      case None => None
      case Some(rest) => Some([node] + rest)
  }

  /** `c` is the chain `node`, `parents[node]`, ... that ends at the first name
      without an entry. */
  ghost predicate IsChain(parents: map<string, string>, node: string, c: seq<string>) {
    && |c| > 0
    && c[0] == node
    && c[|c| - 1] !in parents
    && forall i :: 0 <= i < |c| - 1 ==> c[i] in parents && parents[c[i]] == c[i + 1]
  }

  /** The walk from `node` reaches a name that has no entry. */
  predicate Terminates(parents: map<string, string>, node: string) {
    Walk(parents, node, {}).Some?
  }

  function Reverse<T>(s: seq<T>): (r: seq<T>)
    ensures |r| == |s|
    ensures forall i :: 0 <= i < |s| ==> r[i] == s[|s| - 1 - i]
  {
    if |s| == 0 then [] else Reverse(s[1..]) + [s[0]]
  }

  /** The route `printRoute` prints: the chain from `nodeToBeFound`, reversed. Its
      last name is `nodeToBeFound`, its first has no entry in `parents`, and each
      later name maps to the one printed before it. */
  function PrintRoute(parents: map<string, string>, nodeToBeFound: string): (route: seq<string>)
    requires Terminates(parents, nodeToBeFound)
    ensures |route| > 0 && route[|route| - 1] == nodeToBeFound
    ensures route[0] !in parents
    ensures forall i :: 0 < i < |route| ==> route[i] in parents && parents[route[i]] == route[i - 1]
  {
    var chain := Walk(parents, nodeToBeFound, {}).value;
    var route := Reverse(chain);
    forall i | 0 < i < |route| ensures route[i] in parents && parents[route[i]] == route[i - 1] {
      assert route[i] == chain[|chain| - 1 - i] && route[i - 1] == chain[|chain| - 1 - i + 1];
    }
    route
  }

  // ---------------------------------------------------------------------------
  // The printing loop itself

  /** The value of the loop variable after `n` iterations of the printing loop
      started at `node`; None is `null`, after which the loop has exited. */
  function Follow(parents: map<string, string>, node: string, n: nat): Option<string>
    decreases n
  {
    if n == 0 then Some(node)
    else if node in parents then Follow(parents, parents[node], n - 1)
    else None
  }

  /** Following `a` steps and then `b` more is following `a + b` steps. */
  lemma {:induction false} FollowAdd(parents: map<string, string>, node: string, a: nat, b: nat)
    ensures Follow(parents, node, a + b) ==
      match Follow(parents, node, a)
      case None => None
      case Some(x) => Follow(parents, x, b)
    decreases a
  {
    if a > 0 && node in parents {
      FollowAdd(parents, parents[node], a - 1, b);
    } else if a > 0 {
      FollowNoneStays(parents, node, a + b);
    }
  }

  lemma FollowNoneStays(parents: map<string, string>, node: string, n: nat)
    requires node !in parents && n > 0
    ensures Follow(parents, node, n) == None
  {
  }

  /** Once the loop has exited it stays exited. */
  lemma {:induction false} FollowSomeBefore(parents: map<string, string>, node: string, n: nat, j: nat)
    requires j <= n && Follow(parents, node, n).Some?
    ensures Follow(parents, node, j).Some?
    decreases n
  {
    if j > 0 {
      assert node in parents;
      FollowSomeBefore(parents, parents[node], n - 1, j - 1);
    }
  }

  /** On a terminating chain the loop visits exactly the chain's names and then
      exits. */
  lemma {:induction false} ChainIsFollowed(parents: map<string, string>, node: string, c: seq<string>)
    requires IsChain(parents, node, c)
    ensures forall j :: 0 <= j < |c| ==> Follow(parents, node, j) == Some(c[j])
    ensures Follow(parents, node, |c|) == None
    decreases |c|
  {
    if |c| > 1 {
      var rest := c[1..];
      assert IsChain(parents, c[1], rest);
      ChainIsFollowed(parents, c[1], rest);
      forall j | 0 < j < |c| ensures Follow(parents, node, j) == Some(c[j]) {
        assert rest[j - 1] == c[j];
      }
    }
  }

  /** A name the loop returns to after `k >= 1` iterations keeps it running forever. */
  lemma {:induction false} CycleRunsForever(parents: map<string, string>, x: string, k: nat, n: nat)
    requires k >= 1 && Follow(parents, x, k) == Some(x)
    ensures Follow(parents, x, n).Some?
    decreases n
  {
    if n < k {
      FollowSomeBefore(parents, x, k, n);
    } else {
      FollowAdd(parents, x, k, n - k);
      CycleRunsForever(parents, x, k, n - k);
    }
  }

  /** When the walk meets a name again, the printing loop started at `origin` never
      exits. `dist` says how many iterations take each collected name to `node`. */
  lemma {:induction false} RepeatRunsForever(parents: map<string, string>, node: string, seen: set<string>,
                                             origin: string, m: nat, dist: map<string, nat>)
    requires Walk(parents, node, seen).None?
    requires Follow(parents, origin, m) == Some(node)
    requires forall s :: s in seen ==> s in dist && dist[s] >= 1 && Follow(parents, s, dist[s]) == Some(node)
    ensures forall n :: Follow(parents, origin, n).Some?
    decreases parents.Keys - seen
  {
    if node in seen {
      forall n: nat ensures Follow(parents, origin, n).Some? {
        if n <= m {
          FollowSomeBefore(parents, origin, m, n);
        } else {
          FollowAdd(parents, origin, m, n - m);
          CycleRunsForever(parents, node, dist[node], n - m);
        }
      }
    } else {
      assert node in parents.Keys - seen;
      var next := parents[node];
      var dist' := map s | s in seen + {node} :: if s == node then 1 else dist[s] + 1;
      forall s | s in seen + {node}
        ensures s in dist' && dist'[s] >= 1 && Follow(parents, s, dist'[s]) == Some(next)
      {
        if s != node {
          FollowAdd(parents, s, dist[s], 1);
        }
      }
      FollowAdd(parents, origin, m, 1);
      RepeatRunsForever(parents, next, seen + {node}, origin, m + 1, dist');
    }
  }

  /** The printed route is the sequence of values the loop variable takes, in
      reverse: the name printed j-th from the end is the value after j iterations,
      and the loop exits right after the first printed name. */
  lemma PrintRouteIsLoop(parents: map<string, string>, nodeToBeFound: string)
    requires Terminates(parents, nodeToBeFound)
    ensures var route := PrintRoute(parents, nodeToBeFound);
      && (forall j :: 0 <= j < |route| ==> Follow(parents, nodeToBeFound, j) == Some(route[|route| - 1 - j]))
      && Follow(parents, nodeToBeFound, |route|) == None
  {
    var chain := Walk(parents, nodeToBeFound, {}).value;
    ChainIsFollowed(parents, nodeToBeFound, chain);
  }

  /** The walk terminates exactly when the printing loop exits after finitely many
      iterations. */
  lemma TerminatesIffLoopExits(parents: map<string, string>, node: string)
    ensures Terminates(parents, node) <==> exists n :: Follow(parents, node, n).None?
  {
    match Walk(parents, node, {})
    case Some(c) =>
      ChainIsFollowed(parents, node, c);
    case None =>
      RepeatRunsForever(parents, node, {}, node, 0, map[]);
  }
}

=== FILE: wrappers.dfy ===
/** Failure-compatible wrappers used for absent values and error returns. */
module Wrappers {

  /** A value that may be absent (Java's `null`). */
  datatype Option<+T> = None | Some(value: T)

  /** Either a result or the error that replaced it (a Java exception). */
  datatype Result<+T, +E> = Success(value: T) | Failure(error: E)
}
